=== FILE: README.md ===
# User identity and account linking — a Dafny model

This project models the identity rules of the `User` model of a community
forum (ruby-china): login validation, guest accounts created from an e-mail
address, accounts created from an external provider's callback payload
(OAuth "authorizations"), the provider lookups, the password policy, the
bulk marking of notifications as read, and the trust predicates (`admin?`,
`wiki_editor?`, `github_url`, the creation-time state).

Storage is abstracted as a sequence of user records and a sequence of
notification records, both in insertion order; a query's `.first` is the
first matching record of the sequence. (Without a sort, `.first` orders by
document id; the model takes every new id to sort after every stored one,
as time-ordered ids do.) Every operation is a pure function
from the store (and its inputs) to a result and a new store. Where the
code changes its caller's objects in place — `params.delete(:current_password)`
removes the key from the caller's hash, and `gsub!`/`slice!` rewrite the
payload's own nickname string, which `user.login` shares — the model
returns new values instead; nothing in the modelled code reads those
objects afterwards.

Modules:

- `Optional` — `Option` (Ruby's `nil`-or-value) and `First`, the first match in a sequence.
- `Text` — the string operations the model relies on: `\w`, `blank?`, ASCII case folding,
  `split("@").first`, `gsub!(/[^\w]/, '_')`, `slice!(0, n)`, `Integer#to_s`.
- `Records` — `User`, `Authorization`, `Notification`, the field defaults and the `STATE` table.
- `LoginRules` — the login validation.
- `NotificationReads` — `read_notifications`.
- `PasswordPolicy` — `password_required?` and `update_with_password`.
- `Trust` — `admin?`, `wiki_editor?`, `github_url`.
- `Accounts` — `find_by_email`, `find_or_create_guest`, `bind?`, `find_from_hash`, `create_from_hash`.

Inputs that the code reads from outside the model are parameters:
what Devise does to a new user's e-mail (`EmailPolicy`: its rewrite before
validation, such as down-casing, and its presence and format verdict on the
result; whether another stored user already has the rewritten e-mail is read
from the store), Devise's `super` in
`password_required?` (`deviseRequires`), the admin e-mail list, the clock
(`timestamp`, the value of `Time.now.to_i`), the id the store gives a new
document (`newId`), and whether the store accepts the unvalidated save in
`create_from_hash` (`saved`).

The model follows the code as written, including where it departs from
what its names suggest:

- `create_from_hash` replaces each non-word character with `_` (it does not
  strip them), and `slice!(0, 20)` removes the first 20 characters and keeps
  the rest (it does not truncate). See Findings.
- The nickname falls back to the username only when the nickname is nil;
  an empty nickname is kept (and then ends in the fallback login).
- `find_from_hash` does not require the provider and the uid to sit on the
  same authorization. See Findings.
- When the guest save fails, `find_or_create_guest` returns the value of the
  logging call, not a user; the model returns a `Rejected` outcome carrying
  the login errors and whether the e-mail was refused.

## Model

| member | source | states |
|---|---|---|
| `Text.MatchesWordPlus` | app/models/user.rb:48 | the format `\A\w+\z` holds exactly for a non-empty string of ASCII letters, digits and `_` |
| `Text.SameIgnoringCaseIff` | app/models/user.rb:48 | two logins are equal ignoring case exactly when they have the same length and agree character by character after ASCII folding |
| `Text.IsBlank` | app/models/user.rb:110 | `blank?` holds exactly when every character is in Ruby 1.9's `[[:space:]]`: tab through carriage return, space, U+0085, U+00A0, U+1680, U+180E, U+2000–U+200A, U+2028, U+2029, U+202F, U+205F or the full-width space U+3000 |
| `Text.FullWidthSpaceIsBlank` | app/models/user.rb:110 | strings of full-width, no-break, em and ASCII spaces and vertical tabs are blank, and one with any other character is not |
| `Text.WordBlankIsEmpty` | app/models/user.rb:142 | after scrubbing, `blank?` on the login means the login is empty |
| `Text.BeforeFirst` | app/models/user.rb:99 | `split("@").first` is the longest prefix of the e-mail with no `@`: it is the whole e-mail or is followed by an `@` |
| `Text.BeforeFirstAt` | app/models/user.rb:99 | the login cut from `name@domain`, for a name with no `@`, is the name itself |
| `Text.DowncaseFixedIff` | app/models/user.rb:95 | Devise's down-casing leaves an e-mail unchanged exactly when it has no upper-case ASCII letter |
| `Text.ReplaceNonWord` | app/models/user.rb:140 | the scrubbed login has the same length and keeps each word character, putting `_` for every other one |
| `Text.ReplaceNonWordSpec` | app/models/user.rb:140 | the scrubbed login is made of word characters only, and a word login is left unchanged |
| `Text.ReplaceNonWordSlices` | app/models/user.rb:140-141 | scrubbing then cutting equals cutting then scrubbing, for the kept tail and for the head |
| `Text.SliceBang` | app/models/user.rb:141 | after `slice!(0, n)` the string holds what follows its first `n` characters, and nothing when it had at most `n` |
| `Text.Decimal` | app/models/user.rb:143 | the timestamp is written as a non-empty run of decimal digits with no leading zero |
| `Text.DecimalRoundTrip` | app/models/user.rb:143 | reading the written timestamp back gives the timestamp |
| `Text.DecimalInjective` | app/models/user.rb:143 | different timestamps give different fallback digits |
| `Records.DefaultValueForCreate` | app/models/user.rb:76-79 | the created record's state is `STATE[:normal]` and no other field changes |
| `LoginRules.LoginTaken` | app/models/user.rb:48 | a login is taken exactly when some other user's login equals it ignoring case |
| `LoginRules.LoginErrors` | app/models/user.rb:48 | each error is raised exactly under its condition (blank, not `\w+`, length outside 3..20, taken ignoring case), and a login is accepted iff it is all word characters, 3 to 20 long, and no other user's login equals it ignoring case |
| `NotificationReads.UnreadIds` | app/models/user.rb:35 | an id is collected exactly when the batch shows a notification with that id as unread |
| `NotificationReads.UpdateAll` | app/models/user.rb:37-41 | the bulk update keeps every id and owner, and a notification ends read exactly when it was read or is owned by the user, listed, and still unread |
| `NotificationReads.ReadNotifications` | app/models/user.rb:34-43 | the write happens iff the batch shows an unread notification; without it the store is untouched; a stored notification changes exactly when it is the user's, shown unread in the batch and still unread, and then only its flag goes to read; nothing goes from read to unread |
| `NotificationReads.ReadNotificationsIdempotent` | app/models/user.rb:34-43 | a second call with the same batch leaves the store as the first call left it |
| `PasswordPolicy.PasswordWaivedIff` | app/models/user.rb:54-57 | when Devise asks for a password, it may be left out exactly for a guest or for a user with an authorization who proposes a blank one |
| `PasswordPolicy.PasswordRequiredBounds` | app/models/user.rb:54-57 | a password is never required of a guest nor beyond Devise's own answer, and for a non-guest proposing a non-blank password Devise's answer decides |
| `PasswordPolicy.UpdateWithPassword` | app/models/user.rb:109-116 | the password path is taken iff one of `current_password`, `password`, `password_confirmation` is non-blank, with the parameters untouched; otherwise exactly `current_password` is removed, the other entries are kept, and no credential entry is non-blank |
| `PasswordPolicy.WithoutPasswordIsStable` | app/models/user.rb:109-116 | the parameters handed to the password-less update would select the password-less path again, unchanged |
| `Trust.WikiEditorMonotone` | app/models/user.rb:65-74 | adding e-mails to the admin list never takes wiki editing away from any user |
| `Trust.GithubUrl` | app/models/user.rb:59-62 | the address is empty exactly when the handle is blank, and otherwise is `http://github.com/` followed by the handle |
| `Accounts.FindUser` | app/models/user.rb:125 | a query returns nothing iff no stored user matches, and otherwise the earliest matching user |
| `Accounts.FindUserAppendKeeps` | app/models/user.rb:125 | storing a user after others never changes what an already-answered query returns |
| `Accounts.FindUserAppendFinds` | app/models/user.rb:125 | a newly stored user is returned by a query nothing before it answered |
| `Accounts.FindByEmail` | app/models/user.rb:124-126 | the lookup returns the earliest stored user with exactly that e-mail, and nothing iff no user has it |
| `Accounts.FindFromHash` | app/models/user.rb:132-134 | the written lookup returns the earliest stored user with some authorization for the provider and some authorization with the uid, and nothing iff no user has both |
| `Accounts.FindFromHashIntended` | app/models/user.rb:132-134 | the corrected lookup returns the earliest stored user holding the authorization (provider, uid), and nothing iff no user holds it |
| `Accounts.FindFromHashIntendedImpliesWritten` | app/models/user.rb:132-134 | whenever the corrected lookup finds a user, the written one finds a user too |
| `Accounts.FindFromHashCrossMatch` | app/models/user.rb:133 | a user linked as github/"1" and twitter/"2" is returned for twitter/"1" as written, and not by the corrected lookup |
| `Accounts.FindOrCreateGuest` | app/models/user.rb:94-107 | an existing e-mail returns that user with the store unchanged; otherwise a guest is created iff its login passes validation, Devise accepts the rewritten e-mail and no stored user has it, it is appended as the only new record with Devise's rewrite of the e-mail, the text before the first `@` as login, guest set and normal state; on failure the store is unchanged and the login errors and the e-mail verdict (refused, or already taken) are reported |
| `Accounts.GuestIdempotent` | app/models/user.rb:94-107 | for an e-mail Devise stores unchanged, a repeated call with the same e-mail returns the user found or created by the first and stores nothing |
| `Accounts.GuestRepeatMisses` | app/models/user.rb:95-100 | when Devise rewrites the e-mail, a repeated call after a creation does not find the guest it created and is refused because the rewritten e-mail is taken |
| `Accounts.GuestRepeatMissesExample` | app/models/user.rb:95-100 | with a down-casing rewrite, "Bob@example.com" creates guest "Bob" on an empty store and a second call does not find it and is refused |
| `Accounts.FindOrCreateGuestIntended` | app/models/user.rb:94-107 | the corrected call looks up the stored form of the e-mail: a user with that form is returned with the store unchanged; a guest is created iff no user has the stored form, Devise accepts it and the login from the e-mail as passed has no validation error; it is appended with the stored form and that login; otherwise the store is unchanged |
| `Accounts.GuestIdempotentIntended` | app/models/user.rb:94-107 | with the corrected lookup, a repeated call returns the first call's user and stores nothing, whatever Devise does to the e-mail |
| `Accounts.GuestEmailUnique` | app/models/user.rb:94-107 | after a creation, exactly one stored user has the stored form of the e-mail, the new one |
| `Accounts.GuestNoSilentRename` | app/models/user.rb:94-101 | a derived login taken by another user up to case makes the call fail with `Taken`; nothing is renamed or stored |
| `Accounts.GuestNeedsNoPassword` | app/models/user.rb:54-55 | a created guest is never asked for a password, whatever the input and Devise's answer |
| `Accounts.FallbackLogin` | app/models/user.rb:143 | the fallback login is `u` followed by the digits of the timestamp with no leading zero, is all word characters, and reads back as the timestamp |
| `Accounts.DeriveProviderLogin` | app/models/user.rb:139-144 | as written: the login is non-empty and all word characters; a name of at most 20 characters always ends in the fallback; a longer one keeps its scrubbed tail after the 20th character unless that tail is exactly an existing login; a non-fallback login equals no existing login |
| `Accounts.DeriveProviderLoginIntended` | app/models/user.rb:139-144 | corrected: the login is non-empty and all word characters; the scrubbed first 20 characters are kept whenever non-empty and not exactly an existing login; a non-fallback login has at most 20 characters and equals no existing login |
| `Accounts.ShortNicknameLost` | app/models/user.rb:141 | the free nickname "alice" becomes the fallback login as written and stays "alice" when corrected |
| `Accounts.CreateFromHash` | app/models/user.rb:136-159 | a user is returned iff the save succeeds; then it is appended with the derived login, e-mail, location and tagline from the payload, website the value of the first url pair (none when the urls are blank), exactly the one authorization (provider, uid), not guest, not verified, normal state; on failure the store is unchanged |
| `Accounts.CreateFromHashIntended` | app/models/user.rb:136-159 | the same sign-up with the corrected login derivation |
| `Accounts.ProviderUserIsBound` | app/models/user.rb:128-134 | the new user is bound to the payload's provider, and the lookup for (provider, uid) then returns it unless an earlier user already answered that lookup, which is still returned |
| `Accounts.ProviderUserFoundIntended` | app/models/user.rb:132-134 | with the corrected derivation and lookup, the new user is returned for its (provider, uid) when no one held that binding before |
| `Accounts.ProviderUserPasswordOptional` | app/models/user.rb:54-57 | a user created from a provider may leave the password blank whatever Devise says; with a non-blank one Devise decides |

## Left out

- Persistence: Mongoid documents, indexes, soft delete, timestamps and mass-assignment protection. The store is a sequence; soft-deleted records are not distinguished.
- Devise internals: `super` in `password_required?` is the `deviseRequires` input; Devise's e-mail rewrite and checks are the `EmailPolicy` input, left abstract; the two Devise update paths of `update_with_password` are named by `UpdatePath`, not modelled.
- The welcome mail (`after_create`) and the logging calls: side effects with no effect on the store.
- `cached_count` and Redis objects: caching.
- The associations and the follow graph (topics, replies, followers, nodes): links with no logic here.
- Time.now: the timestamp is a parameter.
- Document ids: the new id is a parameter. The first-match lookups assume each new id sorts after every stored id, so that `.first` (ordered by id) is the first match in insertion order; `Accounts.FindUserAppendKeeps` and `Accounts.ProviderUserIsBound` rely on it.
- Why an unvalidated save fails: the store's verdict is the `saved` parameter.
- Accounts.CreateFromHash: requires a nickname or a username, since the code fails on a nil login before any decision.
- Races between the collision check and the save, and between the guest lookup and the guest save: the store owns them.
- LoginRules.LoginErrors: case folding is ASCII only, while the database's case-insensitive match also folds non-ASCII letters; every login the code stores is made of ASCII word characters.
- Text.BeforeFirst: where Ruby yields a nil login (an e-mail that is empty or made only of `@`) the model yields the empty login; both fail presence, format and length alike.
- NotificationReads.ReadNotifications: does not return the result of `update_all`, which depends on the database driver; it reports whether the write was issued.
- `admin?` and `wiki_editor?` are the predicates `Trust.IsAdmin` and `Trust.IsWikiEditor`, with no contract of their own; `Trust.WikiEditorMonotone` relates editing rights across admin lists.
- `bind?` and `password_required?` are the predicates `Accounts.Bind` and `PasswordPolicy.PasswordRequired`, with no contract of their own; `Accounts.ProviderUserIsBound` states `bind?` for a provider sign-up, and `PasswordPolicy.PasswordWaivedIff` and `PasswordPolicy.PasswordRequiredBounds` together fix `password_required?`.

## Findings

| source | as written | input that shows it | evidently intended | confidence | as-written member | corrected member |
|---|---|---|---|---|---|---|
| app/models/user.rb:141 | `slice!(0, 20)` removes the first 20 characters and keeps the rest, so any name of at most 20 characters becomes blank and falls back to `u<timestamp>` | nickname "alice" with an empty store: the login is `u` followed by the timestamp | keep the first 20 characters (`login[0, 20]`) | high, not executed | `Accounts.DeriveProviderLogin`, `Accounts.ShortNicknameLost` | `Accounts.DeriveProviderLoginIntended`, `Accounts.CreateFromHashIntended` |
| app/models/user.rb:95 | the lookup uses the e-mail as passed, while Devise stores it down-cased (its default `case_insensitive_keys`) | "Bob@example.com" on an empty store: the guest "Bob" is stored with e-mail "bob@example.com"; a second call misses it, tries to create it again and is refused because the e-mail is taken | look up the stored form of the e-mail | plausible (depends on Devise's configuration, which is not part of this model), not executed | `Accounts.FindOrCreateGuest`, `Accounts.GuestRepeatMisses`, `Accounts.GuestRepeatMissesExample` | `Accounts.FindOrCreateGuestIntended`, `Accounts.GuestIdempotentIntended` |
| app/models/user.rb:133 | the two dotted-field conditions may be met by different authorizations of one user | a user with github/"1" and twitter/"2" is returned for twitter/"1" | one authorization carries both (`$elemMatch`) | medium, not executed | `Accounts.FindFromHash`, `Accounts.FindFromHashCrossMatch` | `Accounts.FindFromHashIntended`, `Accounts.FindFromHashIntendedImpliesWritten` |

=== FILE: accounts.dfy ===
/** Account resolution of the `User` model: `find_by_email`,
    `find_or_create_guest`, `bind?`, `find_from_hash` and
    `create_from_hash`, over a user store kept in insertion order. */
module Accounts {
  import opened Optional
  import opened Text
  import opened Records
  import opened LoginRules
  import opened PasswordPolicy

  /** `where(criteria).first`: the first stored user the criteria select. */
  function FindUser(users: seq<User>, criteria: User -> bool): (r: Option<User>)
    ensures r.None? <==> forall k :: 0 <= k < |users| ==> !criteria(users[k])
    ensures r.Some? ==> exists k :: 0 <= k < |users| && users[k] == r.value && criteria(users[k])
                                    && forall j :: 0 <= j < k ==> !criteria(users[j])
  {
    match First(users, criteria)
    case None => None
    case Some(i) => Some(users[i])
  }

  /** A stored user is never hidden by one appended after it. */
  lemma FindUserAppendKeeps(users: seq<User>, u: User, criteria: User -> bool)
    requires FindUser(users, criteria).Some?
    ensures FindUser(users + [u], criteria) == FindUser(users, criteria)
  {
    FirstAppendKeeps(users, u, criteria);
  }

  /** An appended user is found when nothing before it matched. */
  lemma FindUserAppendFinds(users: seq<User>, u: User, criteria: User -> bool)
    requires FindUser(users, criteria).None?
    requires criteria(u)
    ensures FindUser(users + [u], criteria) == Some(u)
  {
    FirstAppendFinds(users, u, criteria);
  }

  // ---------------------------------------------------------------------
  // Lookups

  function EmailIs(email: string): User -> bool {
    (u: User) => u.email == Some(email)
  }

  /** `find_by_email`: the first user whose e-mail equals `email` exactly. */
  function FindByEmail(users: seq<User>, email: string): (r: Option<User>)
    ensures r.Some? ==> r.value in users && r.value.email == Some(email)
    ensures r.Some? ==> exists k :: 0 <= k < |users| && users[k] == r.value
                                    && forall j :: 0 <= j < k ==> users[j].email != Some(email)
    ensures r.None? <==> forall k :: 0 <= k < |users| ==> users[k].email != Some(email)
  {
    FindUser(users, EmailIs(email))
  }

  /** `bind?(provider)`: some authorization of `u` names `provider`. */
  predicate Bind(u: User, provider: string) {
    exists i :: 0 <= i < |u.authorizations| && u.authorizations[i].provider == provider
  }

  predicate HasUid(u: User, uid: string) {
    exists i :: 0 <= i < |u.authorizations| && u.authorizations[i].uid == uid
  }

  /** The selector `"authorizations.provider" => p, "authorizations.uid" => uid`.
      Without `$elemMatch` each condition may be met by a different
      authorization of the same user. */
  function ProviderAndUid(provider: string, uid: string): User -> bool {
    (u: User) => Bind(u, provider) && HasUid(u, uid)
  }

  /** `find_from_hash`, as the query is written. */
  function FindFromHash(users: seq<User>, provider: string, uid: string): (r: Option<User>)
    ensures r.Some? ==> r.value in users && Bind(r.value, provider) && HasUid(r.value, uid)
    ensures r.Some? ==> exists k :: 0 <= k < |users| && users[k] == r.value
                                    && forall j :: 0 <= j < k ==> !(Bind(users[j], provider) && HasUid(users[j], uid))
    ensures r.None? <==> forall k :: 0 <= k < |users| ==> !(Bind(users[k], provider) && HasUid(users[k], uid))
  {
    FindUser(users, ProviderAndUid(provider, uid))
  }

  function HoldsBinding(provider: string, uid: string): User -> bool {
    (u: User) => Authorization(provider, uid) in u.authorizations
  }

  /** `find_from_hash` as evidently meant: one authorization carries both
      the provider and the uid. */
  function FindFromHashIntended(users: seq<User>, provider: string, uid: string): (r: Option<User>)
    ensures r.Some? ==> r.value in users && Authorization(provider, uid) in r.value.authorizations
    ensures r.Some? ==> exists k :: 0 <= k < |users| && users[k] == r.value
                                    && forall j :: 0 <= j < k ==> Authorization(provider, uid) !in users[j].authorizations
    ensures r.None? <==> forall k :: 0 <= k < |users| ==> Authorization(provider, uid) !in users[k].authorizations
  {
    FindUser(users, HoldsBinding(provider, uid))
  }

  /** Whatever the corrected lookup finds, the written query finds a user too;
      the converse fails (see `FindFromHashCrossMatch`). */
  lemma FindFromHashIntendedImpliesWritten(users: seq<User>, provider: string, uid: string)
    ensures FindFromHashIntended(users, provider, uid).Some? ==> FindFromHash(users, provider, uid).Some?
  {
  }

  /** A user linked to GitHub as uid "1" and to Twitter as uid "2" is
      returned for the Twitter uid "1", which no one holds. */
  lemma FindFromHashCrossMatch()
    ensures var a := NewUser(7).(login := "alice",
                                  authorizations := [Authorization("github", "1"), Authorization("twitter", "2")]);
            && FindFromHash([a], "twitter", "1") == Some(a)
            && FindFromHashIntended([a], "twitter", "1") == None
  {
    var a := NewUser(7).(login := "alice",
                         authorizations := [Authorization("github", "1"), Authorization("twitter", "2")]);
    assert a.authorizations[1].provider == "twitter";
    assert a.authorizations[0].uid == "1";
    assert ProviderAndUid("twitter", "1")(a);
  }

  // ---------------------------------------------------------------------
  // Guest accounts

  datatype GuestOutcome =
    | Existing(user: User)
    | Created(user: User)
    | Rejected(loginErrors: set<LoginError>, emailRejected: bool)

  datatype GuestStep = GuestStep(outcome: GuestOutcome, users: seq<User>)

  /** What Devise does to a new user's e-mail before it is stored:
      `normalize` is its `before_validation` rewrite (down-casing and
      stripping the keys it is configured for), `accepts` its verdict on the
      rewritten e-mail (presence, format); the uniqueness of the rewritten
      e-mail among stored users is checked against the store itself. */
  datatype EmailPolicy = EmailPolicy(normalize: string -> string, accepts: string -> bool)

  /** The record `find_or_create_guest` builds and saves for `email`: the
      login comes from the e-mail as passed, the stored e-mail is Devise's
      rewrite of it. */
  function GuestRecord(email: string, policy: EmailPolicy, id: Id): User {
    DefaultValueForCreate(NewUser(id).(
      email := Some(policy.normalize(email)),
      login := BeforeFirst(email, '@'),
      guest := true))
  }

  /** Lines 95-106 with the lookup key given: look `key` up, otherwise build
      and validate a guest for `email`. */
  function ResolveGuest(users: seq<User>, key: string, email: string, policy: EmailPolicy, newId: Id): GuestStep {
    match FindByEmail(users, key)
    case Some(u) => GuestStep(Existing(u), users)
    case None =>
      var u := GuestRecord(email, policy, newId);
      var errors := LoginErrors(u.login, users);
      var stored := policy.normalize(email);
      var accepted := policy.accepts(stored) && FindByEmail(users, stored).None?;
      if errors == {} && accepted then GuestStep(Created(u), users + [u])
      else GuestStep(Rejected(errors, !accepted), users)
  }

  /** `find_or_create_guest(email)`: the lookup uses the e-mail as passed;
      the login is checked against every stored user. */
  function FindOrCreateGuest(users: seq<User>, email: string, policy: EmailPolicy, newId: Id): (r: GuestStep)
    ensures FindByEmail(users, email).Some? ==> r == GuestStep(Existing(FindByEmail(users, email).value), users)
    ensures r.outcome.Existing? ==> FindByEmail(users, email).Some?
    ensures r.outcome.Created? <==>
              && FindByEmail(users, email).None?
              && policy.accepts(policy.normalize(email))
              && FindByEmail(users, policy.normalize(email)).None?
              && AllWord(BeforeFirst(email, '@'))
              && 3 <= |BeforeFirst(email, '@')| <= 20
              && forall k :: 0 <= k < |users| ==> !SameIgnoringCase(users[k].login, BeforeFirst(email, '@'))
    ensures r.outcome.Created? ==>
              var u := r.outcome.user;
              && r.users == users + [u]
              && u.id == newId && u.email == Some(policy.normalize(email))
              && u.login <= email && '@' !in u.login && (u.login == email || email[|u.login|] == '@')
              && u.guest && !u.verified && u.state == StateNormal && u.authorizations == []
    ensures r.outcome.Rejected? ==>
              && r.users == users
              && r.outcome.loginErrors == LoginErrors(BeforeFirst(email, '@'), users)
              && r.outcome.emailRejected ==
                   !(policy.accepts(policy.normalize(email)) && FindByEmail(users, policy.normalize(email)).None?)
              && (r.outcome.loginErrors != {} || r.outcome.emailRejected)
  {
    ResolveGuest(users, email, email, policy, newId)
  }

  /** For an e-mail Devise stores unchanged, a second call returns the user
      the first one found or created, and stores nothing. */
  lemma GuestIdempotent(users: seq<User>, email: string, policy: EmailPolicy, id1: Id, id2: Id)
    requires policy.normalize(email) == email
    requires !FindOrCreateGuest(users, email, policy, id1).outcome.Rejected?
    ensures var first := FindOrCreateGuest(users, email, policy, id1);
            FindOrCreateGuest(first.users, email, policy, id2)
              == GuestStep(Existing(first.outcome.user), first.users)
  {
    var first := FindOrCreateGuest(users, email, policy, id1);
    if first.outcome.Created? {
      FindUserAppendFinds(users, first.outcome.user, EmailIs(email));
    }
  }

  /** An e-mail Devise rewrites is stored under its rewrite, so the exact
      lookup of a second call misses the guest the first call created. */
  lemma GuestRepeatMisses(users: seq<User>, email: string, policy: EmailPolicy, id1: Id, id2: Id)
    requires policy.normalize(email) != email
    requires FindOrCreateGuest(users, email, policy, id1).outcome.Created?
    ensures var first := FindOrCreateGuest(users, email, policy, id1);
            var second := FindOrCreateGuest(first.users, email, policy, id2);
            second.outcome.Rejected? && second.outcome.emailRejected
  {
    var first := FindOrCreateGuest(users, email, policy, id1);
    assert first.users == users + [first.outcome.user];
    assert forall k :: 0 <= k < |first.users| ==> first.users[k].email != Some(email);
    assert first.outcome.user in first.users;
  }

  /** Devise's default e-mail rewrite, down-casing, with every rewritten
      address accepted. */
  function DowncasingPolicy(): EmailPolicy {
    EmailPolicy(Downcase, (e: string) => true)
  }

  /** On an empty store, an address with a well-formed login part that the
      policy accepts creates a guest under that login. */
  lemma GuestCreatedOnEmpty(email: string, policy: EmailPolicy, id: Id)
    requires AllWord(BeforeFirst(email, '@')) && 3 <= |BeforeFirst(email, '@')| <= 20
    requires policy.accepts(policy.normalize(email))
    ensures FindOrCreateGuest([], email, policy, id).outcome.Created?
    ensures FindOrCreateGuest([], email, policy, id).outcome.user.login == BeforeFirst(email, '@')
  {
  }

  /** "Bob@example.com" yields the login "Bob". */
  lemma BobLogin()
    ensures BeforeFirst("Bob@example.com", '@') == "Bob"
  {
    assert "Bob@example.com" == "Bob" + ['@'] + "example.com";
    BeforeFirstAt("Bob", '@', "example.com");
  }

  /** Down-casing changes "Bob@example.com". */
  lemma BobRewritten()
    ensures DowncasingPolicy().normalize("Bob@example.com") != "Bob@example.com"
  {
    DowncaseFixedIff("Bob@example.com");
    assert 'A' <= "Bob@example.com"[0] <= 'Z';
  }

  /** On an empty store, "Bob@example.com" creates guest "Bob", stored under
      an address that differs from the one passed. */
  lemma DowncasingCreatesBob()
    ensures FindOrCreateGuest([], "Bob@example.com", DowncasingPolicy(), 1).outcome.Created?
    ensures FindOrCreateGuest([], "Bob@example.com", DowncasingPolicy(), 1).outcome.user.login == "Bob"
  {
    BobLogin();
    assert AllWord("Bob");
    GuestCreatedOnEmpty("Bob@example.com", DowncasingPolicy(), 1);
  }

  /** The same with a down-casing rewrite on an empty store: after
      "Bob@example.com" creates guest "Bob", the same call again does not
      find it and refuses the address as taken. */
  lemma GuestRepeatMissesExample()
    ensures var first := FindOrCreateGuest([], "Bob@example.com", DowncasingPolicy(), 1);
            && first.outcome.Created?
            && first.outcome.user.login == "Bob"
            && FindOrCreateGuest(first.users, "Bob@example.com", DowncasingPolicy(), 2).outcome.Rejected?
  {
    BobRewritten();
    DowncasingCreatesBob();
    GuestRepeatMisses([], "Bob@example.com", DowncasingPolicy(), 1, 2);
  }

  /** `find_or_create_guest` with the lookup on the stored form of the
      e-mail, as the method evidently means. */
  function FindOrCreateGuestIntended(users: seq<User>, email: string, policy: EmailPolicy, newId: Id): (r: GuestStep)
    ensures var key := policy.normalize(email);
            FindByEmail(users, key).Some? ==> r == GuestStep(Existing(FindByEmail(users, key).value), users)
    ensures r.outcome.Created? ==>
              && FindByEmail(users, policy.normalize(email)).None?
              && r.users == users + [r.outcome.user]
              && r.outcome.user.email == Some(policy.normalize(email))
              && r.outcome.user.login == BeforeFirst(email, '@')
              && r.outcome.user.guest
    ensures r.outcome.Created? <==>
              && FindByEmail(users, policy.normalize(email)).None?
              && policy.accepts(policy.normalize(email))
              && LoginErrors(BeforeFirst(email, '@'), users) == {}
    ensures !r.outcome.Created? ==> r.users == users
  {
    ResolveGuest(users, policy.normalize(email), email, policy, newId)
  }

  /** With the corrected lookup a second call returns the first call's user
      whatever Devise does to the e-mail. */
  lemma GuestIdempotentIntended(users: seq<User>, email: string, policy: EmailPolicy, id1: Id, id2: Id)
    requires !FindOrCreateGuestIntended(users, email, policy, id1).outcome.Rejected?
    ensures var first := FindOrCreateGuestIntended(users, email, policy, id1);
            FindOrCreateGuestIntended(first.users, email, policy, id2)
              == GuestStep(Existing(first.outcome.user), first.users)
  {
    var first := FindOrCreateGuestIntended(users, email, policy, id1);
    if first.outcome.Created? {
      FindUserAppendFinds(users, first.outcome.user, EmailIs(policy.normalize(email)));
    }
  }

  /** After a guest is created for an e-mail whose stored form nobody had,
      exactly one stored user has that stored form. */
  lemma GuestEmailUnique(users: seq<User>, email: string, policy: EmailPolicy, newId: Id)
    requires FindOrCreateGuest(users, email, policy, newId).outcome.Created?
    ensures var after := FindOrCreateGuest(users, email, policy, newId).users;
            var stored := Some(policy.normalize(email));
            && |after| == |users| + 1
            && after[|users|].email == stored
            && forall k :: 0 <= k < |after| && after[k].email == stored ==> k == |users|
  {
  }

  /** A login taken up to case is not renamed: the call fails with `Taken`. */
  lemma GuestNoSilentRename(users: seq<User>, email: string, policy: EmailPolicy, newId: Id, k: nat)
    requires FindByEmail(users, email).None?
    requires k < |users| && SameIgnoringCase(users[k].login, BeforeFirst(email, '@'))
    ensures var r := FindOrCreateGuest(users, email, policy, newId);
            r.outcome.Rejected? && Taken in r.outcome.loginErrors && r.users == users
  {
  }

  /** A created guest never has to give a password, whatever Devise says. */
  lemma GuestNeedsNoPassword(users: seq<User>, email: string, policy: EmailPolicy, newId: Id)
    requires FindOrCreateGuest(users, email, policy, newId).outcome.Created?
    ensures forall password: Option<string>, devise: bool ::
              !PasswordRequired(FindOrCreateGuest(users, email, policy, newId).outcome.user, password, devise)
  {
  }

  // ---------------------------------------------------------------------
  // Provider sign-up

  /** The `user_info` part of a provider callback payload. */
  datatype UserInfo = UserInfo(
    nickname: Option<string>,
    username: Option<string>,
    email: Option<string>,
    location: Option<string>,
    description: Option<string>,
    urls: Option<seq<(string, string)>>)

  /** A provider callback payload. */
  datatype AuthHash = AuthHash(provider: string, uid: string, info: UserInfo)

  /** `nickname || username` is not nil. */
  predicate HasLoginSource(info: UserInfo) {
    info.nickname.Some? || info.username.Some?
  }

  /** `nickname || username`: an empty nickname is kept, only nil falls through. */
  function LoginSource(info: UserInfo): string
    requires HasLoginSource(info)
  {
    if info.nickname.Some? then info.nickname.value else info.username.value
  }

  function LoginIs(login: string): User -> bool {
    (u: User) => u.login == login
  }

  /** `User.where(:login => login).count > 0`: an exact, case-sensitive match. */
  predicate LoginInUse(users: seq<User>, login: string) {
    FindUser(users, LoginIs(login)).Some?
  }

  /** `"u#{Time.now.to_i}"`. */
  function FallbackLogin(timestamp: nat): (login: string)
    ensures |login| > 1 && login[0] == 'u' && AllWord(login)
    ensures forall i :: 1 <= i < |login| ==> IsDigit(login[i])
    ensures login[1] == '0' ==> timestamp == 0
    ensures DigitsValue(login[1..]) == timestamp
  {
    var digits := Decimal(timestamp);
    DecimalRoundTrip(timestamp);
    assert ("u" + digits)[1..] == digits;
    "u" + digits
  }

  /** Lines 142-144: a candidate that is blank or already in use gives way
      to the fallback login. */
  function Disambiguate(candidate: string, users: seq<User>, timestamp: nat): string {
    if LoginInUse(users, candidate) || IsBlank(candidate) then FallbackLogin(timestamp) else candidate
  }

  /** The login `create_from_hash` derives, as written: scrub with
      `gsub!`, then `slice!(0, 20)`, which removes the first 20 characters
      and keeps the rest. */
  function DeriveProviderLogin(info: UserInfo, users: seq<User>, timestamp: nat): (login: string)
    requires HasLoginSource(info)
    ensures |login| > 0 && AllWord(login)
    ensures |LoginSource(info)| <= 20 ==> login == FallbackLogin(timestamp)
    ensures |LoginSource(info)| > 20 ==>
              var rest := ReplaceNonWord(LoginSource(info)[20..]);
              login == if exists k :: 0 <= k < |users| && users[k].login == rest
                       then FallbackLogin(timestamp) else rest
    ensures login != FallbackLogin(timestamp) ==> forall k :: 0 <= k < |users| ==> users[k].login != login
  {
    var src := LoginSource(info);
    var candidate := SliceBang(ReplaceNonWord(src), 20);
    ReplaceNonWordSpec(src);
    ReplaceNonWordSlices(src, if |src| > 20 then 20 else |src|);
    WordBlankIsEmpty(candidate);
    Disambiguate(candidate, users, timestamp)
  }

  /** The login derivation as evidently meant: scrub, then keep the first
      20 characters (`login[0, 20]`). */
  function DeriveProviderLoginIntended(info: UserInfo, users: seq<User>, timestamp: nat): (login: string)
    requires HasLoginSource(info)
    ensures |login| > 0 && AllWord(login)
    ensures var head := ReplaceNonWord(Take(LoginSource(info), 20));
            (|head| > 0 && forall k :: 0 <= k < |users| ==> users[k].login != head) ==> login == head
    ensures login != FallbackLogin(timestamp) ==>
              && |login| <= 20
              && login == ReplaceNonWord(Take(LoginSource(info), 20))
              && forall k :: 0 <= k < |users| ==> users[k].login != login
  {
    var src := LoginSource(info);
    var candidate := Take(ReplaceNonWord(src), 20);
    ReplaceNonWordSpec(src);
    ReplaceNonWordSlices(src, if |src| < 20 then |src| else 20);
    WordBlankIsEmpty(candidate);
    Disambiguate(candidate, users, timestamp)
  }

  /** The finding in one example: the nickname "alice", free in an empty
      store, is lost as written and kept as meant. */
  lemma ShortNicknameLost(timestamp: nat)
    ensures var info := UserInfo(Some("alice"), None, None, None, None, None);
            && DeriveProviderLogin(info, [], timestamp) == FallbackLogin(timestamp)
            && DeriveProviderLogin(info, [], timestamp) != "alice"
            && DeriveProviderLoginIntended(info, [], timestamp) == "alice"
  {
  }

  /** `urls.first.last` when `urls` is not blank: the value of the first pair. */
  function FirstUrlValue(urls: Option<seq<(string, string)>>): Option<string> {
    if urls.None? || |urls.value| == 0 then None else Some(urls.value[0].1)
  }

  /** The result of a provider sign-up: the user (nil on failure) and the store. */
  datatype ProviderStep = ProviderStep(user: Option<User>, users: seq<User>)

  /** Lines 145-158 with the login already chosen: fill the profile, save
      without validation (`saved` is the store's verdict) and, once saved,
      push the one authorization. */
  function SaveProviderUser(users: seq<User>, auth: AuthHash, login: string, newId: Id, saved: bool): ProviderStep {
    if saved then
      var u := DefaultValueForCreate(NewUser(newId).(
        login := login,
        email := auth.info.email,
        location := auth.info.location,
        tagline := auth.info.description,
        website := FirstUrlValue(auth.info.urls),
        authorizations := [Authorization(auth.provider, auth.uid)]));
      ProviderStep(Some(u), users + [u])
    else ProviderStep(None, users)
  }

  /** What a provider sign-up stores for `auth` with login `login`. */
  predicate ProviderUserFrom(u: User, auth: AuthHash, login: string, newId: Id) {
    && u.id == newId && u.login == login
    && u.email == auth.info.email
    && u.location == auth.info.location
    && u.tagline == auth.info.description
    && (u.website.Some? <==> auth.info.urls.Some? && |auth.info.urls.value| > 0)
    && (u.website.Some? ==> u.website.value == auth.info.urls.value[0].1)
    && u.authorizations == [Authorization(auth.provider, auth.uid)]
    && !u.guest && !u.verified && u.state == StateNormal
    && u.bio.None? && u.github.None? && u.repliesCount == 0
  }

  /** `create_from_hash(auth)`, as written; `timestamp` is `Time.now.to_i`. */
  function CreateFromHash(users: seq<User>, auth: AuthHash, timestamp: nat, newId: Id, saved: bool): (r: ProviderStep)
    requires HasLoginSource(auth.info)
    ensures r.user.Some? <==> saved
    ensures !saved ==> r.users == users
    ensures saved ==>
              && r.users == users + [r.user.value]
              && ProviderUserFrom(r.user.value, auth, DeriveProviderLogin(auth.info, users, timestamp), newId)
  {
    SaveProviderUser(users, auth, DeriveProviderLogin(auth.info, users, timestamp), newId, saved)
  }

  /** `create_from_hash(auth)` with the login derivation as meant. */
  function CreateFromHashIntended(users: seq<User>, auth: AuthHash, timestamp: nat, newId: Id, saved: bool): (r: ProviderStep)
    requires HasLoginSource(auth.info)
    ensures r.user.Some? <==> saved
    ensures !saved ==> r.users == users
    ensures saved ==>
              && r.users == users + [r.user.value]
              && ProviderUserFrom(r.user.value, auth, DeriveProviderLoginIntended(auth.info, users, timestamp), newId)
  {
    SaveProviderUser(users, auth, DeriveProviderLoginIntended(auth.info, users, timestamp), newId, saved)
  }

  /** A saved provider user is bound to the provider, and the lookup for the
      payload's (provider, uid) then returns it, unless an earlier user
      already answered that lookup, which is still returned. */
  lemma ProviderUserIsBound(users: seq<User>, auth: AuthHash, timestamp: nat, newId: Id)
    requires HasLoginSource(auth.info)
    ensures var r := CreateFromHash(users, auth, timestamp, newId, true);
            && Bind(r.user.value, auth.provider)
            && FindFromHash(r.users, auth.provider, auth.uid)
                 == if FindFromHash(users, auth.provider, auth.uid).None? then r.user
                    else FindFromHash(users, auth.provider, auth.uid)
  {
    var r := CreateFromHash(users, auth, timestamp, newId, true);
    var u := r.user.value;
    assert u.authorizations[0] == Authorization(auth.provider, auth.uid);
    if FindFromHash(users, auth.provider, auth.uid).None? {
      FindUserAppendFinds(users, u, ProviderAndUid(auth.provider, auth.uid));
    } else {
      FindUserAppendKeeps(users, u, ProviderAndUid(auth.provider, auth.uid));
    }
  }

  /** With the corrected derivation and lookup, a saved provider user is
      found by its (provider, uid) unless someone already held that binding. */
  lemma ProviderUserFoundIntended(users: seq<User>, auth: AuthHash, timestamp: nat, newId: Id)
    requires HasLoginSource(auth.info)
    requires FindFromHashIntended(users, auth.provider, auth.uid).None?
    ensures var r := CreateFromHashIntended(users, auth, timestamp, newId, true);
            FindFromHashIntended(r.users, auth.provider, auth.uid) == r.user
  {
    var r := CreateFromHashIntended(users, auth, timestamp, newId, true);
    FindUserAppendFinds(users, r.user.value, HoldsBinding(auth.provider, auth.uid));
  }

  /** A provider user may leave the password blank, whatever Devise says;
      with a non-blank password Devise decides. */
  lemma ProviderUserPasswordOptional(users: seq<User>, auth: AuthHash, timestamp: nat, newId: Id)
    requires HasLoginSource(auth.info)
    ensures var u := CreateFromHash(users, auth, timestamp, newId, true).user.value;
            && (forall password: Option<string>, devise: bool ::
                  BlankText(password) ==> !PasswordRequired(u, password, devise))
            && (forall password: Option<string>, devise: bool ::
                  !BlankText(password) ==> PasswordRequired(u, password, devise) == devise)
  {
  }
}

=== FILE: login_rules.dfy ===
/** The login validation of the `User` model: format `\A\w+\z`, length
    3..20, presence, and uniqueness ignoring case against the other users. */
module LoginRules {
  import opened Text
  import opened Records

  /** The field errors a login can collect. */
  datatype LoginError = NotPresent | BadFormat | BadLength | Taken

  /** Some user of `others` holds `login` up to ASCII case. */
  function LoginTaken(login: string, others: seq<User>): (t: bool)
    ensures t <==> exists k :: 0 <= k < |others| && SameIgnoringCase(others[k].login, login)
  {
    if |others| == 0 then false
    else SameIgnoringCase(others[0].login, login) || LoginTaken(login, others[1..])
  }

  /** Every validation error `login` raises when checked against `others`
      (the records other than the one being saved). */
  function LoginErrors(login: string, others: seq<User>): (errs: set<LoginError>)
    ensures NotPresent in errs <==> forall i :: 0 <= i < |login| ==> IsSpace(login[i])
    ensures BadFormat in errs <==> |login| == 0 || exists i :: 0 <= i < |login| && !IsWordChar(login[i])
    ensures BadLength in errs <==> |login| < 3 || 20 < |login|
    ensures Taken in errs <==> exists k :: 0 <= k < |others| && SameIgnoringCase(others[k].login, login)
    ensures errs == {} <==>
              && AllWord(login)
              && 3 <= |login| <= 20
              && forall k :: 0 <= k < |others| ==> !SameIgnoringCase(others[k].login, login)
  {
    var blank := IsBlank(login);
    var format := MatchesWordPlus(login);
    var length := 3 <= |login| <= 20;
    var taken := LoginTaken(login, others);
    assert format ==> !blank by {
      if format { assert IsWordChar(login[0]) && !IsSpace(login[0]); }
    }
    (if blank then {NotPresent} else {})
    + (if format then {} else {BadFormat})
    + (if length then {} else {BadLength})
    + (if taken then {Taken} else {})
  }
}

=== FILE: notifications.dfy ===
/** `User#read_notifications`: one bulk update that marks as read the
    caller's notifications that the passed batch shows as unread. */
module NotificationReads {
  import opened Records

  /** The batch lists notification `id` with its read flag down. */
  ghost predicate ShownUnread(batch: seq<Notification>, id: Id) {
    exists j :: 0 <= j < |batch| && !batch[j].read && batch[j].id == id
  }

  /** `find_all { !read? }.map(&:_id)`: the ids of the unread notifications,
      in batch order. The flags are those of the batch as passed, which may
      be older than the store's. */
  function UnreadIds(batch: seq<Notification>): (ids: seq<Id>)
    ensures |ids| <= |batch|
    ensures forall id :: id in ids <==> ShownUnread(batch, id)
  {
    if |batch| == 0 then []
    else
      var rest := UnreadIds(batch[1..]);
      assert forall id :: ShownUnread(batch[1..], id) ==> ShownUnread(batch, id) by {
        forall id | ShownUnread(batch[1..], id)
          ensures ShownUnread(batch, id)
        {
          var j :| 0 <= j < |batch[1..]| && !batch[1..][j].read && batch[1..][j].id == id;
          assert batch[j + 1] == batch[1..][j];
        }
      }
      if !batch[0].read then [batch[0].id] + rest else rest
  }

  /** The three conditions of the update's selector: owned by `owner`,
      listed in `ids`, and still unread in the store. */
  predicate Selected(n: Notification, owner: Id, ids: seq<Id>) {
    n.userId == owner && n.id in ids && !n.read
  }

  /** `where(user_id: owner, :_id.in => ids, read: false).update_all(read: true)`. */
  function UpdateAll(store: seq<Notification>, owner: Id, ids: seq<Id>): (r: seq<Notification>)
    ensures |r| == |store|
    ensures forall k :: 0 <= k < |store| ==> r[k].id == store[k].id && r[k].userId == store[k].userId
    ensures forall k :: 0 <= k < |store| ==> (r[k].read <==> store[k].read || Selected(store[k], owner, ids))
  {
    if |store| == 0 then []
    else
      var n := store[0];
      [if Selected(n, owner, ids) then n.(read := true) else n] + UpdateAll(store[1..], owner, ids)
  }

  /** The store after the call, and whether the bulk write was issued. */
  datatype ReadOutcome = ReadOutcome(store: seq<Notification>, wrote: bool)

  /** `read_notifications(batch)` called on the user `owner`. */
  function ReadNotifications(store: seq<Notification>, owner: Id, batch: seq<Notification>): (r: ReadOutcome)
    ensures r.wrote <==> exists j :: 0 <= j < |batch| && !batch[j].read
    ensures !r.wrote ==> r.store == store
    ensures |r.store| == |store|
    ensures forall k :: 0 <= k < |store| ==>
              r.store[k].id == store[k].id && r.store[k].userId == store[k].userId
    ensures forall k :: 0 <= k < |store| ==> store[k].read ==> r.store[k].read
    ensures forall k :: 0 <= k < |store| ==>
              (r.store[k] != store[k] <==>
                 store[k].userId == owner && !store[k].read && ShownUnread(batch, store[k].id))
    ensures forall k :: 0 <= k < |store| && r.store[k] != store[k] ==> r.store[k] == store[k].(read := true)
  {
    var ids := UnreadIds(batch);
    if |ids| > 0 then
      assert ShownUnread(batch, ids[0]);
      ReadOutcome(UpdateAll(store, owner, ids), true)
    else
      assert forall j :: 0 <= j < |batch| && !batch[j].read ==> batch[j].id in ids;
      ReadOutcome(store, false)
  }

  /** Calling twice with the same batch leaves the store as one call does,
      and the second call changes nothing. */
  lemma ReadNotificationsIdempotent(store: seq<Notification>, owner: Id, batch: seq<Notification>)
    ensures var once := ReadNotifications(store, owner, batch).store;
            ReadNotifications(once, owner, batch).store == once
  {
  }
}

=== FILE: optional.dfy ===
/** Ruby's `nil`-or-value, and a first-match search over a sequence (the
    `.first` of a filtered query or of `find_all`). */
module Optional {

  /** A value that may be `nil`. */
  datatype Option<+T> = None | Some(value: T)

  /** Index of the first element satisfying `p`, or None when there is none.
      This is what `where(...).first` returns over a store kept in
      insertion order. */
  function First<T>(s: seq<T>, p: T -> bool): (r: Option<nat>)
    ensures r.Some? ==> r.value < |s| && p(s[r.value])
    ensures r.Some? ==> forall j :: 0 <= j < r.value ==> !p(s[j])
    ensures r.None? <==> forall j :: 0 <= j < |s| ==> !p(s[j])
  {
    if |s| == 0 then None
    else if p(s[0]) then Some(0)
    else match First(s[1..], p)
      case None => None
      case Some(i) => Some(i + 1)
  }

  /** Appending an element never changes an existing first match. */
  lemma {:induction false} FirstAppendKeeps<T>(s: seq<T>, x: T, p: T -> bool)
    requires First(s, p).Some?
    ensures First(s + [x], p) == First(s, p)
  {
    if !p(s[0]) {
      assert (s + [x])[1..] == s[1..] + [x];
      FirstAppendKeeps(s[1..], x, p);
    }
  }

  /** With no match before it, an appended matching element is the first match. */
  lemma {:induction false} FirstAppendFinds<T>(s: seq<T>, x: T, p: T -> bool)
    requires First(s, p).None?
    requires p(x)
    ensures First(s + [x], p) == Some(|s|)
  {
    if |s| > 0 {
      assert (s + [x])[1..] == s[1..] + [x];
      FirstAppendFinds(s[1..], x, p);
    }
  }
}

=== FILE: password_policy.dfy ===
/** When the `User` model asks for a password: `password_required?` and the
    branch of `update_with_password`. Devise's own decision (`super`) is an
    input; Devise's update paths are named, not modelled. */
module PasswordPolicy {
  import opened Optional
  import opened Records

  /** `password_required?` for user `u` with the proposed `password`
      (an attribute accessor, not a stored field); `deviseRequires` is what
      Devise's `super` answers. */
  predicate PasswordRequired(u: User, password: Option<string>, deviseRequires: bool) {
    if u.guest then false
    else (|u.authorizations| == 0 || !BlankText(password)) && deviseRequires
  }

  /** With Devise asking for one, a password may be left out exactly for a
      guest, or for a provider-linked user who proposes a blank one. */
  lemma PasswordWaivedIff(u: User, password: Option<string>)
    ensures !PasswordRequired(u, password, true) <==>
              u.guest || (|u.authorizations| > 0 && BlankText(password))
  {
  }

  /** The model never asks for more than Devise does, and never asks a guest. */
  lemma PasswordRequiredBounds(u: User, password: Option<string>, deviseRequires: bool)
    ensures PasswordRequired(u, password, deviseRequires) ==> deviseRequires && !u.guest
    ensures !u.guest && !BlankText(password) ==> PasswordRequired(u, password, deviseRequires) == deviseRequires
  {
  }

  /** The parameter names that select the password-changing path. */
  const CredentialKeys: set<string> := {"current_password", "password", "password_confirmation"}

  /** `params[key].blank?` with a missing key read as `nil`. */
  predicate ParamBlank(params: map<string, string>, key: string) {
    key !in params || Text.IsBlank(params[key])
  }

  /** Which Devise update `update_with_password` delegates to, with the
      parameters it hands over. */
  datatype UpdatePath =
    | WithPassword(params: map<string, string>)     // `super`: re-authenticate, then update
    | WithoutPassword(params: map<string, string>)  // `update_without_password`

  /** `update_with_password(params)`. */
  function UpdateWithPassword(params: map<string, string>): (p: UpdatePath)
    ensures p.WithPassword? <==> exists key :: key in CredentialKeys && !ParamBlank(params, key)
    ensures p.WithPassword? ==> p.params == params
    ensures p.WithoutPassword? ==>
              && p.params.Keys == params.Keys - {"current_password"}
              && (forall key :: key in p.params ==> p.params[key] == params[key])
              && (forall key :: key in CredentialKeys ==> ParamBlank(p.params, key))
  {
    if !ParamBlank(params, "current_password") || !ParamBlank(params, "password")
       || !ParamBlank(params, "password_confirmation")
    then WithPassword(params)
    else WithoutPassword(params - {"current_password"})
  }

  /** The parameters handed to the password-less update would select the
      password-less path again: that path never carries a credential. */
  lemma WithoutPasswordIsStable(params: map<string, string>)
    requires UpdateWithPassword(params).WithoutPassword?
    ensures var handed := UpdateWithPassword(params).params;
            UpdateWithPassword(handed) == WithoutPassword(handed)
  {
  }
}

=== FILE: records.dfy ===
/** The records of the `User` model and of its notifications, with the
    field defaults the model declares. Storage is a sequence of records in
    insertion order. */
module Records {
  import opened Optional
  import Text

  type Id = nat

  /** `STATE[:normal]`; the table's other entry, `:blocked => 2`, is set by
      moderation outside this model. */
  const StateNormal: int := 1

  /** One embedded provider link: `Authorization(provider, uid)`. */
  datatype Authorization = Authorization(provider: string, uid: string)

  /** A user document. `nil` text fields are `None`; the login is always
      text in the records the model stores. */
  datatype User = User(
    id: Id,
    login: string,
    email: Option<string>,
    location: Option<string>,
    bio: Option<string>,
    website: Option<string>,
    github: Option<string>,
    tagline: Option<string>,
    verified: bool,
    state: int,
    guest: bool,
    repliesCount: int,
    authorizations: seq<Authorization>)

  /** A notification document: its owner and its read flag. */
  datatype Notification = Notification(id: Id, userId: Id, read: bool)

  /** `User.new`: every field at its declared default. */
  function NewUser(id: Id): User {
    User(id, "", None, None, None, None, None, None,
         false, StateNormal, false, 0, [])
  }

  /** `blank?` on a possibly-nil string. */
  predicate BlankText(s: Option<string>) {
    s.None? || Text.IsBlank(s.value)
  }

  /** The `before_create` callback: the state becomes normal, nothing else moves. */
  function DefaultValueForCreate(u: User): (r: User)
    ensures r.state == StateNormal
    ensures r.(state := u.state) == u
  {
    u.(state := StateNormal)
  }
}

=== FILE: text.dfy ===
/** The string operations the `User` model relies on, on `seq<char>`:
    Ruby's `\w` class (ASCII, no Unicode flag), `blank?`, ASCII case folding
    as used by a case-insensitive uniqueness query, `split("@").first`,
    `gsub!(/[^\w]/, '_')`, `slice!(0, n)` and `Integer#to_s`. */
module Text {

  /** Ruby's `\w`: `[A-Za-z0-9_]`. */
  predicate IsWordChar(c: char) {
    ('a' <= c <= 'z') || ('A' <= c <= 'Z') || ('0' <= c <= '9') || c == '_'
  }

  predicate AllWord(s: string) {
    forall i :: 0 <= i < |s| ==> IsWordChar(s[i])
  }

  /** Anchored match of `\A\w+\z`, scanning left to right. */
  function MatchesWordPlus(s: string): (m: bool)
    ensures m <==> |s| > 0 && AllWord(s)
  {
    if |s| == 0 then false
    else if |s| == 1 then IsWordChar(s[0])
    else IsWordChar(s[0]) && MatchesWordPlus(s[1..])
  }

  /** A character `String#blank?` skips on Ruby 1.9 (`self !~ /[^[:space:]]/`):
      the Unicode white-space characters of Ruby 1.9's tables — tab, line
      feed, vertical tab, form feed, carriage return, space, U+0085, U+00A0,
      U+1680, U+180E, U+2000 to U+200A, U+2028, U+2029, U+202F, U+205F and
      the full-width space U+3000. */
  predicate IsSpace(c: char) {
    || ('\t' <= c <= '\r')
    || c == ' ' || c == '\U{0085}' || c == '\U{00A0}' || c == '\U{1680}' || c == '\U{180E}'
    || ('\U{2000}' <= c <= '\U{200A}')
    || c == '\U{2028}' || c == '\U{2029}' || c == '\U{202F}' || c == '\U{205F}' || c == '\U{3000}'
  }

  /** `String#blank?`: the string has no character outside `IsSpace`. */
  function IsBlank(s: string): (b: bool)
    ensures b <==> forall i :: 0 <= i < |s| ==> IsSpace(s[i])
  {
    if |s| == 0 then true else IsSpace(s[0]) && IsBlank(s[1..])
  }

  /** Full-width and other Unicode spaces are blank, as ASCII spaces are. */
  lemma FullWidthSpaceIsBlank()
    ensures IsBlank("\U{3000}") && IsBlank(" \U{3000}\t") && IsBlank("\U{00A0}\U{2003}\U{000B}")
    ensures !IsBlank("\U{3000}x")
  {
  }

  /** A word string is blank exactly when it is empty. */
  lemma WordBlankIsEmpty(s: string)
    requires AllWord(s)
    ensures IsBlank(s) <==> |s| == 0
  {
  }

  /** ASCII down-casing of one character. */
  function FoldChar(c: char): char {
    if 'A' <= c <= 'Z' then (c as int + 32) as char else c
  }

  /** `downcase` restricted to ASCII letters. */
  function Downcase(s: string): (r: string)
    ensures |r| == |s|
    ensures forall i :: 0 <= i < |s| ==> r[i] == FoldChar(s[i])
  {
    if |s| == 0 then [] else [FoldChar(s[0])] + Downcase(s[1..])
  }

  /** Down-casing leaves exactly the strings with no upper-case ASCII letter
      unchanged. */
  lemma DowncaseFixedIff(s: string)
    ensures Downcase(s) == s <==> forall i :: 0 <= i < |s| ==> !('A' <= s[i] <= 'Z')
  {
    if Downcase(s) == s {
      forall i | 0 <= i < |s|
        ensures !('A' <= s[i] <= 'Z')
      {
        assert Downcase(s)[i] == FoldChar(s[i]);
      }
    }
  }

  /** Equality ignoring ASCII case, as a `/^...$/i` query compares. */
  predicate SameIgnoringCase(a: string, b: string) {
    Downcase(a) == Downcase(b)
  }

  /** Case-insensitive equality is character-wise equality after folding. */
  lemma SameIgnoringCaseIff(a: string, b: string)
    ensures SameIgnoringCase(a, b) <==>
            |a| == |b| && forall i :: 0 <= i < |a| ==> FoldChar(a[i]) == FoldChar(b[i])
  {
  }

  /** `s.split(sep).first`: the text before the first `sep`, or all of `s`.
      (Ruby yields nil where this yields the empty string: for an empty
      string or one made only of `sep`.) */
  function BeforeFirst(s: string, sep: char): (r: string)
    ensures r <= s
    ensures sep !in r
    ensures r == s || s[|r|] == sep
  {
    if |s| == 0 || s[0] == sep then [] else [s[0]] + BeforeFirst(s[1..], sep)
  }

  /** Cutting at the first separator gives back the part written before it. */
  lemma {:induction false} BeforeFirstAt(head: string, sep: char, rest: string)
    requires sep !in head
    ensures BeforeFirst(head + [sep] + rest, sep) == head
    decreases |head|
  {
    if |head| > 0 {
      assert (head + [sep] + rest)[1..] == head[1..] + [sep] + rest;
      BeforeFirstAt(head[1..], sep, rest);
    }
  }

  /** The character `gsub!(/[^\w]/, '_')` leaves in place of `c`. */
  function ScrubChar(c: char): char {
    if IsWordChar(c) then c else '_'
  }

  /** `gsub!(/[^\w]/, '_')`: every non-word character becomes `_`. */
  function ReplaceNonWord(s: string): (r: string)
    ensures |r| == |s|
    ensures forall i :: 0 <= i < |s| ==> r[i] == ScrubChar(s[i])
  {
    if |s| == 0 then [] else [ScrubChar(s[0])] + ReplaceNonWord(s[1..])
  }

  /** Scrubbing yields a word string, and leaves a word string as it is. */
  lemma ReplaceNonWordSpec(s: string)
    ensures AllWord(ReplaceNonWord(s))
    ensures AllWord(s) ==> ReplaceNonWord(s) == s
  {
  }

  /** Scrubbing commutes with cutting: it works character by character. */
  lemma {:induction false} ReplaceNonWordSlices(s: string, n: nat)
    requires n <= |s|
    ensures ReplaceNonWord(s)[n..] == ReplaceNonWord(s[n..])
    ensures ReplaceNonWord(s)[..n] == ReplaceNonWord(s[..n])
  {
    var r := ReplaceNonWord(s);
    var tail := ReplaceNonWord(s[n..]);
    var head := ReplaceNonWord(s[..n]);
    forall i | 0 <= i < |tail|
      ensures r[n..][i] == tail[i]
    {
      assert r[n + i] == ScrubChar(s[n + i]);
    }
    forall i | 0 <= i < |head|
      ensures r[..n][i] == head[i]
    {
      assert r[i] == ScrubChar(s[i]);
    }
    assert r[n..] == tail;
    assert r[..n] == head;
  }

  /** What `s` holds after `s.slice!(0, n)`: the first `n` characters are
      removed (and returned to the caller), the remainder stays. */
  function SliceBang(s: string, n: nat): (rest: string)
    ensures |s| <= n ==> rest == []
    ensures |s| > n ==> |rest| == |s| - n
    ensures s == s[..|s| - |rest|] + rest
  {
    if |s| <= n then [] else s[n..]
  }

  /** The first `n` characters, `s[0, n]`. */
  function Take(s: string, n: nat): (head: string)
    ensures |head| == if |s| < n then |s| else n
    ensures head <= s
  {
    if |s| <= n then s else s[..n]
  }

  predicate IsDigit(c: char) {
    '0' <= c <= '9'
  }

  function DigitChar(d: nat): (c: char)
    requires d < 10
    ensures IsDigit(c)
  {
    ('0' as int + d) as char
  }

  /** `Integer#to_s` for a non-negative integer: decimal digits, no leading zero. */
  function Decimal(n: nat): (s: string)
    ensures |s| > 0
    ensures forall i :: 0 <= i < |s| ==> IsDigit(s[i])
    ensures s[0] == '0' ==> n == 0
  {
    if n < 10 then [DigitChar(n)] else Decimal(n / 10) + [DigitChar(n % 10)]
  }

  /** The number a string of decimal digits denotes (`String#to_i` on digits). */
  function DigitsValue(s: string): nat
    requires forall i :: 0 <= i < |s| ==> IsDigit(s[i])
  {
    if |s| == 0 then 0
    else
      assert IsDigit(s[|s| - 1]);
      DigitsValue(s[..|s| - 1]) * 10 + (s[|s| - 1] as int - '0' as int)
  }

  /** Reading back the decimal form of `n` gives `n`. */
  lemma {:induction false} DecimalRoundTrip(n: nat)
    ensures DigitsValue(Decimal(n)) == n
  {
    if n >= 10 {
      var s := Decimal(n);
      assert s[..|s| - 1] == Decimal(n / 10);
      DecimalRoundTrip(n / 10);
    }
  }

  /** Different numbers have different decimal forms. */
  lemma DecimalInjective(m: nat, n: nat)
    requires Decimal(m) == Decimal(n)
    ensures m == n
  {
    DecimalRoundTrip(m);
    DecimalRoundTrip(n);
  }
}

=== FILE: trust.dfy ===
/** The trust predicates of the `User` model: `admin?`, `wiki_editor?` and
    `github_url`. The admin e-mail list is configuration, passed in. */
module Trust {
  import opened Optional
  import opened Records

  /** `admin?`: the user's e-mail is on the configured list. */
  predicate IsAdmin(u: User, adminEmails: seq<string>) {
    u.email.Some? && u.email.value in adminEmails
  }

  /** `wiki_editor?`: an admin, or a verified user. */
  predicate IsWikiEditor(u: User, adminEmails: seq<string>) {
    IsAdmin(u, adminEmails) || u.verified
  }

  /** Growing the admin list never takes wiki editing away from anyone. */
  lemma WikiEditorMonotone(u: User, admins: seq<string>, more: seq<string>)
    requires forall e :: e in admins ==> e in more
    ensures IsWikiEditor(u, admins) ==> IsWikiEditor(u, more)
  {
  }

  const GithubPrefix: string := "http://github.com/"

  /** `github_url`: empty for a blank handle, otherwise the profile address. */
  function GithubUrl(u: User): (url: string)
    ensures url == [] <==> BlankText(u.github)
    ensures url != [] ==> |GithubPrefix| < |url| && url[..|GithubPrefix|] == GithubPrefix && url[|GithubPrefix|..] == u.github.value
  {
    if BlankText(u.github) then "" else GithubPrefix + u.github.value
  }
}
